=== FILE: README.md ===
# Legal assistant chat pipeline, modelled in Dafny

This project models the core of a multilingual legal assistant. A user writes
a complaint in English, Tamil or Hindi. The `/chat` handler translates it to
English, classifies the legal issue (theft, fraud, ...), loads the latest
version of the country's law library, explains why the law applies and
builds a response whose content depends on the requester's role
(citizen, lawyer or accused). Top-level string values are then translated
back into the user's language.

Modules, following the program's agents:

- `Wrappers` holds `Option` and `Result`.
- `Json` holds the JSON-shaped values the Python code passes around, plus
  `dict.get` and f-string rendering.
- `Text` holds lower-casing, substring search (Python's `in` on strings) and
  POSIX `os.path.join`.
- `LexOrder` holds Python's string ordering and a sort with its
  specification.
- `LawRepository` models the law agent. It picks the `.json` version file
  that sorts last in a country's directory and reports the two not-found
  errors. The file system is a `Disk` value, a map from path to directory
  listing or parsed document.
- `LawRecords` holds the parts of a law record and of the version metadata
  that the agents read through `dict.get`.
- `Reasoning` models the reasoning agent: keyword rules per issue and a
  fixed conclusion sentence.
- `Fields` and `Response` model the response agent. There is a base
  envelope and one block per role. Unrecognised roles get a message.
- `Pipeline` models the `chat` handler. Language detection, both translators
  and the intent classifier are passed in as functions in `Services`.
- `Scenarios` holds a small library with one country's directory listing
  and no version documents. It shows the version choice in that listing
  and the error for a country the library lacks.

## Model

| member | source | states |
|---|---|---|
| Json.Get | agents/response_agent.py:4-9 | `dict.get` gives the stored value for a present key and `None` for a key the dictionary lacks |
| Json.Display | agents/reasoning_agent.py:20 | a string is rendered verbatim and `None` as the text `None` |
| Text.Lower | agents/reasoning_agent.py:4 | lower-casing keeps the length and maps every character by itself |
| Text.Contains | agents/reasoning_agent.py:7 | Python's `word in text`: the word starts at the first position or occurs in the rest; its meaning is stated by `Text.ContainsIff` |
| Text.ContainsIff | agents/reasoning_agent.py:7 | `word in text` holds exactly when the word occurs at some position of the text |
| Text.LowerKeepsOccurrences | agents/reasoning_agent.py:4-9 | a word found in the raw text is still found, lower-cased, in the lower-cased text |
| Text.LowerIdempotent | agents/reasoning_agent.py:4 | lower-casing an already lower-cased text changes nothing |
| Text.JoinPath | agents/law_agent.py:5 | the joined path ends with the second part, and is `a/b` when neither part supplies a separator |
| LexOrder.NotAfter | agents/law_agent.py:10-12 | Python's `<=` on strings: code-point order, a proper prefix first; its order laws are the four lemmas below |
| LexOrder.NotAfterReflexive | agents/law_agent.py:10-12 | every name sorts no later than itself |
| LexOrder.NotAfterAntisymmetric | agents/law_agent.py:10-12 | two names that each sort no later than the other are equal |
| LexOrder.NotAfterTransitive | agents/law_agent.py:10-12 | string ordering is transitive |
| LexOrder.NotAfterTotal | agents/law_agent.py:10-12 | any two names are comparable |
| LexOrder.Insert | agents/law_agent.py:10-12 | inserting into a sorted list keeps it sorted and adds exactly that element |
| LexOrder.Sort | agents/law_agent.py:10-12 | `sorted` returns an ordered permutation of its input |
| LexOrder.LastIsGreatest | agents/law_agent.py:17 | the last element of a sorted list is at least every element |
| LexOrder.GreatestIsUnique | agents/law_agent.py:17 | a set has at most one greatest name |
| LawRepository.VersionNames | agents/law_agent.py:11 | a name is kept exactly when it is listed and ends in `.json` |
| LawRepository.SelectLatest | agents/law_agent.py:7-17 | a missing directory gives the first error; no `.json` name gives the second; otherwise the chosen name ends in `.json`, is listed and sorts last among the `.json` names |
| LawRepository.SelectLatestDependsOnlyOnVersions | agents/law_agent.py:10-12 | two listings with the same `.json` names select the same version |
| LawRepository.OtherNamesIgnored | agents/law_agent.py:11 | inserting a non-`.json` name anywhere in the listing never changes the outcome |
| LawRepository.GreatestVersionIsSelected | agents/law_agent.py:10-17 | conversely, a listed `.json` name that sorts last is the one chosen |
| LawRepository.LatestOfThreeYears | agents/law_agent.py:10-17 | of `2021.json`, `2022.json` and `2023.json` the last year is chosen |
| LawRepository.LoadLatestLawData | agents/law_agent.py:4-23 | the country error is raised exactly when `law_data/<country>` is missing; the no-versions error exactly when its listing has no `.json` name; when the selected file in that directory holds a readable document its `laws` and `meta` are returned, and otherwise that path is reported unreadable; any data returned is that content |
| Reasoning.LegalReasoning | agents/reasoning_agent.py:1-21 | the conclusion names the section; theft gives 1 to 3 rationales ending in "Indicates dishonest intention", with each keyword rationale present exactly when one of its words occurs; "stolen" puts the taking first; the Tamil stem fires both theft rules in order; fraud gives 1 to 2 ending in "Dishonest inducement detected"; any other issue gives none |
| Reasoning.MentionsAny | agents/reasoning_agent.py:7-14 | `any(word in text for word in words)`: some listed word occurs in the text |
| Reasoning.Fired | agents/reasoning_agent.py:7-16 | every rationale given belongs to a rule whose trigger occurs in the text, every rule whose trigger occurs gives its rationale, and there are never more rationales than rules |
| Reasoning.LegalReasoningFollowsRules | agents/reasoning_agent.py:6-16 | the rationales are exactly the fired rules' rationales in rule order followed by the closing one |
| Reasoning.ReasoningIgnoresCase | agents/reasoning_agent.py:4 | lower-casing the user's text first changes nothing in the analysis |
| Reasoning.StolenTextShowsTaking | agents/reasoning_agent.py:4-11 | a text containing "stolen" in any letter case yields at least two theft rationales, the taking first |
| Reasoning.ConclusionNamesSection | agents/reasoning_agent.py:20 | a string section starts the conclusion |
| Response.ParseRole | agents/response_agent.py:14-47 | each of the three role names selects its own branch, and only that name does |
| Fields.NameInjective | agents/response_agent.py:2-47 | the response keys the handler writes are pairwise distinct, so each field of an envelope stands for exactly one dictionary key |
| Response.BuildResponse | agents/response_agent.py:1-11 | the keys are the eight base keys plus the role's block; the base values are the issue, the record's and metadata's parts and the fixed disclaimer |
| Response.CitizenBlock | agents/response_agent.py:14-24 | the citizen block holds the explanation, the four-step checklist and the legal flow, and no punishment |
| Response.CitizenResponse | agents/response_agent.py:14-24 | for `citizen`, exactly the base keys plus explanation, checklist and legal flow, and no punishment |
| Response.LawyerBlock | agents/response_agent.py:26-32 | the lawyer block holds the conditions, the legal flow as procedure, the punishment and the professional note |
| Response.LawyerResponse | agents/response_agent.py:26-32 | for `lawyer`, exactly the base keys plus conditions, procedure, punishment and note, taken from the record |
| Response.AccusedBlock | agents/response_agent.py:34-44 | the accused block holds the four rights, the advice and the punishment, and no citizen or lawyer-only key |
| Response.AccusedResponse | agents/response_agent.py:34-44 | for `accused`, exactly the base keys plus rights, advice and punishment, and no citizen or lawyer-only key |
| Response.AccusedKeysExcludeOthers | agents/response_agent.py:34-44 | the accused envelope's keys are disjoint from the citizen keys and the lawyer-only keys |
| Response.InvalidRoleResponse | agents/response_agent.py:46-47 | any other role gives exactly the base keys plus `message`, holding the invalid-role text |
| LawRecords.RecordOf | agents/response_agent.py:4-43 | each part of the law record is `law_info.get` of its key (`law_name`, `section`, `severity`, `explanation`, `legal_flow`, `punishment`, `conditions`); also used for `section` at agents/reasoning_agent.py:20 |
| LawRecords.MetadataOf | agents/response_agent.py:7-9 | each part of the metadata is `meta_info.get` of `version`, `year` or `last_updated` |
| Pipeline.Language | main.py:28 | the detected language is the detector's answer on the raw input |
| Pipeline.ProcessedInput | main.py:29 | the processed input is the raw input translated to English from the detected language |
| Pipeline.Intent | main.py:31 | the intent is the classifier's label for the processed input |
| Pipeline.MessageOnly | main.py:33-43 | an early answer is a dictionary with the single key `message` |
| Pipeline.ReasoningValue | main.py:46-49 | the stored reasoning is an object with exactly `reasoning` and `conclusion`: the rationales as a list of strings in the same order, and the conclusion unchanged |
| Pipeline.BackTranslated | main.py:55-56 | one value of the closing comprehension: a string becomes its back-translation, any other value is kept as it is |
| Pipeline.TranslateBack | main.py:54-58 | the keys are kept; string values go through the back-translator; every other value is kept as it is |
| Pipeline.Enrich | main.py:48-52 | the echo keys are added, the agent's own values are kept, and the echo values are the reasoning, country, role and language |
| Pipeline.Chat | main.py:22-60 | an unknown intent answers with the first message; otherwise a load error propagates out; an error result only ever comes from the loader |
| Pipeline.EchoKeysAreNew | main.py:49-52 | the four echo keys never overwrite a key the response agent set, whatever the role |
| Pipeline.TranslateBackIdentity | main.py:54-58 | identity translators leave the response unchanged |
| Pipeline.UnknownIntentSkipsLoader | main.py:33-38 | with an unknown intent the answer is the same for every disk and every country, so the loader is never consulted |
| Pipeline.UncoveredIntent | main.py:40-43 | an intent the loaded laws lack gives the second message, untranslated |
| Pipeline.CoveredIntent | main.py:45-60 | a covered intent gives the response agent's keys plus the four echo keys; the reasoning object is untranslated, the echoed strings are back-translated |
| Pipeline.AgentValuesSurvive | main.py:49-58 | adding the echo fields and translating back leaves every key the response agent set holding its value, back-translated when it is a string |
| Pipeline.CoveredIntentKeepsAgentValues | main.py:45-60 | for a covered intent, every key of `build_response`'s result reaches the caller with that result's value, back-translated when it is a string |
| Pipeline.StolenReportRecognised | main.py:44-49 | a theft report whose English text says "stolen" in any letter case succeeds, and the list the caller receives under `reasoning` starts with the taking |
| Scenarios.IndiaPicksLatestYear | agents/law_agent.py:10-17 | a directory listing `2023.json`, `notes.txt` and `2024.json` selects `2024.json` |
| Scenarios.UnknownCountryFails | agents/law_agent.py:5-8 | asking for a country that has no directory ends the request with the country error |

## Left out

- Language detection, translation to and from English, and the trained
  intent classifier are not part of this model. `Services` takes them as
  functions.
- File I/O and `json.load` are not modelled. The disk is a value. Any of the
  following collapses into `Unreadable(path)`:
  - a version file that is missing;
  - a version file that is a directory;
  - a version file that fails to parse;
  - a version file that lacks `laws` or `meta`;
  - a country path that is a file.
- Text.Lower: only ASCII letters are lower-cased. Python's `str.lower` also
  maps non-ASCII capitals. The keywords that matter here are lower-case
  English, Tamil or Devanagari, which have no case.
- Json.Display: lists and dictionaries are rendered as `[...]` and `{...}`
  placeholders rather than Python's `repr`. Only the string and `None` cases
  are stated.
- Dictionary key order is not modelled. Responses are maps.
- The FastAPI binding, the startup training hook and the HTTP defaults are
  not modelled. `Chat` takes every argument explicitly, so the defaults
  `country="india"` and `user_role="citizen"` do not appear.
- The browser scripts are not part of this model.
- The loader's errors are raised as Python `FileNotFoundError` and are not
  caught by `chat`, so `Chat` returns them as `Failure`. There is no
  fallback message for a missing country and no keyword fallback in the
  classifier.
- Json.Value has no floating-point case. A version, year or section stored
  as a JSON float such as `1.5` cannot be represented. Its f-string
  rendering in the conclusion is therefore not modelled either.
- LawData types every law record and the `meta` part as a dictionary. A
  record or `meta` part that is not a JSON object makes Python raise
  `AttributeError` at its first `.get`. The model cannot express such a
  file. It can at most treat it as `Unreadable`.
- Disk keys are exact path spellings, without normalisation. A country
  such as `india/` or `../x` resolves through the real file system in
  ways the model does not follow.

=== FILE: fields.dfy ===
/**
  The keys a chat response can carry. Python builds the response as a
  `dict` keyed by these names; `Name` gives each key's spelling.
 */
module Fields {
  import opened Json

  datatype Field =
    // base envelope
    | IssueIdentified | LawName | Section | Severity
    | LawVersion | LawYear | LastUpdated | DisclaimerField
    // citizen block
    | Explanation | WhatYouShouldDo | LegalFlow
    // lawyer block
    | LegalConditions | Procedure | Punishment | Note
    // accused block
    | ImportantRights | LegalAdviceField
    // invalid role, and the handler's early exits
    | Message
    // fields the request handler adds
    | LegalReasoningField | Country | UserRole | LanguageDetected

  /** A response: a dictionary from field to JSON value. */
  type Envelope = map<Field, Value>

  function Name(f: Field): string
  {
    match f
    case IssueIdentified => "issue_identified"
    case LawName => "law_name"
    case Section => "section"
    case Severity => "severity"
    case LawVersion => "law_version"
    case LawYear => "law_year"
    case LastUpdated => "last_updated"
    case DisclaimerField => "disclaimer"
    case Explanation => "explanation"
    case WhatYouShouldDo => "what_you_should_do"
    case LegalFlow => "legal_flow"
    case LegalConditions => "legal_conditions"
    case Procedure => "procedure"
    case Punishment => "punishment"
    case Note => "note"
    case ImportantRights => "important_rights"
    case LegalAdviceField => "legal_advice"
    case Message => "message"
    case LegalReasoningField => "legal_reasoning"
    case Country => "country"
    case UserRole => "user_role"
    case LanguageDetected => "language_detected"
  }

  /** Distinct fields are spelled differently, so an envelope maps one-to-one onto the dictionary keys. */
  lemma NameInjective()
    ensures forall f, g :: Name(f) == Name(g) ==> f == g
  {
  }
}

=== FILE: json.dfy ===
/**
  JSON-shaped values as the Python code handles them: the law records read
  from disk, the metadata record and the response envelope are all
  dictionaries from strings to such values.
 */
module Json {

  datatype Value =
    | Null
    | Bool(b: bool)
    | Num(n: int)
    | Str(s: string)
    | Arr(items: seq<Value>)
    | Obj(fields: map<string, Value>)

  /** A Python `dict` with string keys. */
  type Dict = map<string, Value>

  /** `d.get(key)`: the stored value, or `None` when the key is absent. */
  function Get(d: Dict, key: string): (v: Value)
    ensures key in d ==> v == d[key]
    ensures key !in d ==> v == Null
  {
    if key in d then d[key] else Null
  }

  /** A Python list of strings. */
  function StrList(xs: seq<string>): (v: Value)
    ensures v.Arr? && |v.items| == |xs|
    ensures forall i :: 0 <= i < |xs| ==> v.items[i] == Str(xs[i])
  {
    Arr(seq(|xs|, i requires 0 <= i < |xs| => Str(xs[i])))
  }

  function DigitChar(d: nat): char
    requires d < 10
  {
    "0123456789"[d]
  }

  /** Decimal notation of a natural number, without leading zeros. */
  function Digits(n: nat): (s: string)
    ensures |s| > 0
    decreases n
  {
    if n < 10 then [DigitChar(n)] else Digits(n / 10) + [DigitChar(n % 10)]
  }

  /**
    What an f-string interpolation `{v}` renders: strings verbatim, `None`,
    `True`/`False` and decimal integers as Python prints them. Lists and
    objects are rendered only as bracket placeholders.
   */
  function Display(v: Value): (s: string)
    ensures v.Str? ==> s == v.s
    ensures v.Null? ==> s == "None"
  {
    match v
    case Null => "None"
    case Bool(b) => if b then "True" else "False"
    case Num(n) => if n < 0 then "-" + Digits(-n) else Digits(n)
    case Str(s) => s
    case Arr(_) => "[...]"
    case Obj(_) => "{...}"
  }
}

=== FILE: law_record.dfy ===
/**
  The parts of a law record and of the version metadata that the agents
  read. Both agents read the JSON dictionaries only through `dict.get`, so
  each part is the stored value, or `None` when the key is absent.
 */
module LawRecords {
  import opened Json

  datatype LawRecord = LawRecord(
    lawName: Value,
    section: Value,
    severity: Value,
    explanation: Value,
    legalFlow: Value,
    punishment: Value,
    conditions: Value)

  datatype Metadata = Metadata(version: Value, year: Value, lastUpdated: Value)

  /** The `law_info.get(...)` reads of the law record's keys. */
  function RecordOf(lawInfo: Dict): LawRecord
  {
    LawRecord(
      Get(lawInfo, "law_name"),
      Get(lawInfo, "section"),
      Get(lawInfo, "severity"),
      Get(lawInfo, "explanation"),
      Get(lawInfo, "legal_flow"),
      Get(lawInfo, "punishment"),
      Get(lawInfo, "conditions"))
  }

  /** The `meta_info.get(...)` reads of the metadata's keys. */
  function MetadataOf(meta: Dict): Metadata
  {
    Metadata(Get(meta, "version"), Get(meta, "year"), Get(meta, "last_updated"))
  }
}

=== FILE: law_repository.dfy ===
/**
  The law agent: finds a country's directory under `law_data`, picks the
  version file whose name sorts last among the `.json` names, and hands back
  its `laws` and `meta` parts. The file system is a value of type `Disk`.
 */
module LawRepository {
  import opened Wrappers
  import opened Json
  import opened Text
  import opened LexOrder

  /** The two `FileNotFoundError`s the agent raises, and a version file that cannot be read. */
  datatype LawError =
    | CountryNotAvailable   // "Country law data not available"
    | NoLawVersions         // "No law versions found"
    | Unreadable(path: string)

  /** The `laws` (intent name to law record) and `meta` parts of a version file. */
  datatype LawData = LawData(laws: map<string, Dict>, meta: Dict)

  /**
    What a path names on disk: a directory with its listing, or a file whose
    JSON document holds both `laws` and `meta` (`Some`) or does not (`None`).
   */
  datatype Entry = Directory(names: seq<string>) | Document(content: Option<LawData>)

  type Disk = map<string, Entry>

  const LawRoot := "law_data"
  const VersionSuffix := ".json"

  predicate IsVersionName(name: string)
  {
    EndsWith(name, VersionSuffix)
  }

  /** The listing's `.json` names, in listing order. */
  function VersionNames(listing: seq<string>): (r: seq<string>)
    ensures forall n :: n in r <==> n in listing && IsVersionName(n)
    ensures |r| <= |listing|
  {
    if |listing| == 0 then []
    else (if IsVersionName(listing[0]) then [listing[0]] else []) + VersionNames(listing[1..])
  }

  /**
    The selection step of the agent: given whether the country directory
    exists and what it lists, the name of the latest version file.
   */
  function SelectLatest(dirExists: bool, listing: seq<string>): (r: Result<string, LawError>)
    ensures !dirExists <==> r == Failure(CountryNotAvailable)
    ensures dirExists ==> (r == Failure(NoLawVersions) <==> forall n :: n in listing ==> !IsVersionName(n))
    ensures dirExists && (exists n :: n in listing && IsVersionName(n)) ==> r.Success?
    ensures r.Success? ==> IsVersionName(r.value) && r.value in listing
    ensures r.Success? ==> forall n :: n in listing && IsVersionName(n) ==> NotAfter(n, r.value)
  {
    if !dirExists then Failure(CountryNotAvailable)
    else
      var versions := Sort(VersionNames(listing));
      if |versions| == 0 then
        assert |multiset(VersionNames(listing))| == 0;
        Failure(NoLawVersions)
      else
        var latest := versions[|versions| - 1];
        assert latest in multiset(versions);
        assert latest in VersionNames(listing);
        LastIsGreatest(versions);
        assert forall n :: n in listing && IsVersionName(n) ==> n in versions by {
          forall n | n in listing && IsVersionName(n) ensures n in versions {
            assert n in multiset(VersionNames(listing));
          }
        }
        Success(latest)
  }

  /** The latest version depends only on which `.json` names are listed. */
  lemma SelectLatestDependsOnlyOnVersions(dirExists: bool, l1: seq<string>, l2: seq<string>)
    requires forall n :: n in l1 && IsVersionName(n) <==> n in l2 && IsVersionName(n)
    ensures SelectLatest(dirExists, l1) == SelectLatest(dirExists, l2)
  {
    var r1, r2 := SelectLatest(dirExists, l1), SelectLatest(dirExists, l2);
    if r1.Success? && r2.Success? {
      var names := set n | n in l1 && IsVersionName(n);
      GreatestIsUnique(r1.value, r2.value, names);
    }
  }

  /** A listed name without the `.json` suffix never changes the choice. */
  lemma OtherNamesIgnored(dirExists: bool, before: seq<string>, name: string, after: seq<string>)
    requires !IsVersionName(name)
    ensures SelectLatest(dirExists, before + [name] + after) == SelectLatest(dirExists, before + after)
  {
    SelectLatestDependsOnlyOnVersions(dirExists, before + [name] + after, before + after);
  }

  /** Conversely, a listed `.json` name that no other `.json` name follows is the one chosen. */
  lemma GreatestVersionIsSelected(listing: seq<string>, m: string)
    requires m in listing && IsVersionName(m)
    requires forall n :: n in listing && IsVersionName(n) ==> NotAfter(n, m)
    ensures SelectLatest(true, listing) == Success(m)
  {
    var r := SelectLatest(true, listing);
    assert !(forall n :: n in listing ==> !IsVersionName(n));
    var names := set n | n in listing && IsVersionName(n);
    GreatestIsUnique(r.value, m, names);
  }

  /** Three yearly versions: the latest year is chosen. */
  lemma LatestOfThreeYears()
    ensures SelectLatest(true, ["2021.json", "2022.json", "2023.json"]) == Success("2023.json")
  {
    var listing := ["2021.json", "2022.json", "2023.json"];
    assert "2023.json"[4..] == VersionSuffix;
    assert NotAfter("2021.json", "2023.json") && NotAfter("2022.json", "2023.json");
    NotAfterReflexive("2023.json");
    assert forall n :: n in listing ==> n == "2021.json" || n == "2022.json" || n == "2023.json";
    GreatestVersionIsSelected(listing, "2023.json");
  }

  /**
    `load_latest_law_data(country)`: the country directory is
    `law_data/<country>`; the latest version file is read from it.
   */
  function LoadLatestLawData(disk: Disk, country: string): (r: Result<LawData, LawError>)
    ensures JoinPath(LawRoot, country) !in disk <==> r == Failure(CountryNotAvailable)
    ensures var dir := JoinPath(LawRoot, country);
      dir in disk && disk[dir].Directory? ==>
        (r == Failure(NoLawVersions) <==> forall n :: n in disk[dir].names ==> !IsVersionName(n))
    ensures var dir := JoinPath(LawRoot, country);
      dir in disk && disk[dir].Document? ==> r == Failure(Unreadable(dir))
    ensures var dir := JoinPath(LawRoot, country);
      dir in disk && disk[dir].Directory? && SelectLatest(true, disk[dir].names).Success? ==>
        var path := JoinPath(dir, SelectLatest(true, disk[dir].names).value);
        && (path in disk && disk[path].Document? && disk[path].content.Some? ==> r == Success(disk[path].content.value))
        && (!(path in disk && disk[path].Document? && disk[path].content.Some?) ==> r == Failure(Unreadable(path)))
    ensures r.Success? ==>
      var dir := JoinPath(LawRoot, country);
      && dir in disk && disk[dir].Directory?
      && var latest := SelectLatest(true, disk[dir].names);
      && latest.Success?
      && JoinPath(dir, latest.value) in disk
      && disk[JoinPath(dir, latest.value)] == Document(Some(r.value))
  {
    var dir := JoinPath(LawRoot, country);
    if dir !in disk then Failure(CountryNotAvailable)
    else match disk[dir]
      case Document(_) => Failure(Unreadable(dir))
      case Directory(names) =>
        var latest :- SelectLatest(true, names);
        var path := JoinPath(dir, latest);
        if path in disk && disk[path].Document? && disk[path].content.Some? then
          Success(disk[path].content.value)
        else
          Failure(Unreadable(path))
  }
}

=== FILE: lex_order.dfy ===
/**
  Python's ordering of `str` values (code point by code point, a proper
  prefix first) and `sorted` over a list of names.
 */
module LexOrder {

  /** `a <= b` for Python strings. */
  predicate NotAfter(a: string, b: string)
    decreases |a|
  {
    |a| == 0 || (|b| > 0 && (a[0] < b[0] || (a[0] == b[0] && NotAfter(a[1..], b[1..]))))
  }

  lemma {:induction false} NotAfterReflexive(a: string)
    ensures NotAfter(a, a)
    decreases |a|
  {
    if |a| > 0 {
      NotAfterReflexive(a[1..]);
    }
  }

  lemma {:induction false} NotAfterAntisymmetric(a: string, b: string)
    requires NotAfter(a, b) && NotAfter(b, a)
    ensures a == b
    decreases |a|
  {
    if |a| > 0 {
      NotAfterAntisymmetric(a[1..], b[1..]);
      assert a == [a[0]] + a[1..] && b == [b[0]] + b[1..];
    }
  }

  lemma {:induction false} NotAfterTransitive(a: string, b: string, c: string)
    requires NotAfter(a, b) && NotAfter(b, c)
    ensures NotAfter(a, c)
    decreases |a|
  {
    if |a| > 0 && a[0] == b[0] && b[0] == c[0] {
      NotAfterTransitive(a[1..], b[1..], c[1..]);
    }
  }

  lemma {:induction false} NotAfterTotal(a: string, b: string)
    ensures NotAfter(a, b) || NotAfter(b, a)
    decreases |a|
  {
    if |a| > 0 && |b| > 0 && a[0] == b[0] {
      NotAfterTotal(a[1..], b[1..]);
    }
  }

  ghost predicate Sorted(s: seq<string>)
  {
    forall i, j :: 0 <= i < j < |s| ==> NotAfter(s[i], s[j])
  }

  /** A head that comes before every member of a sorted tail keeps it sorted. */
  lemma PrependSorted(h: string, t: seq<string>)
    requires Sorted(t)
    requires forall y :: y in t ==> NotAfter(h, y)
    ensures Sorted([h] + t)
  {
    var r := [h] + t;
    forall i, j | 0 <= i < j < |r| ensures NotAfter(r[i], r[j]) {
      if i > 0 {
        assert r[i] == t[i - 1] && r[j] == t[j - 1];
      } else {
        assert r[j] == t[j - 1];
        assert r[j] in t;
      }
    }
  }

  /** Every member of a sorted list comes no earlier than its head. */
  lemma HeadIsLeast(s: seq<string>)
    requires Sorted(s) && |s| > 0
    ensures forall y :: y in s ==> NotAfter(s[0], y)
  {
    forall y | y in s ensures NotAfter(s[0], y) {
      var k :| 0 <= k < |s| && s[k] == y;
      if k == 0 {
        NotAfterReflexive(y);
      }
    }
  }

  /** Inserts `x` in front of the first element it does not come after. */
  function Insert(x: string, s: seq<string>): (r: seq<string>)
    requires Sorted(s)
    ensures Sorted(r)
    ensures multiset(r) == multiset(s) + multiset{x}
    decreases |s|
  {
    if |s| == 0 then [x]
    else if NotAfter(x, s[0]) then
      HeadIsLeast(s);
      assert forall y :: y in s ==> NotAfter(x, y) by {
        forall y | y in s ensures NotAfter(x, y) {
          NotAfterTransitive(x, s[0], y);
        }
      }
      PrependSorted(x, s);
      [x] + s
    else
      var rest := Insert(x, s[1..]);
      InsertKeepsLowerBound(s, x, rest);
      PrependSorted(s[0], rest);
      assert s == [s[0]] + s[1..];
      [s[0]] + rest
  }

  /** The head of `s` still comes first after `x`, which follows it, joins the tail. */
  lemma InsertKeepsLowerBound(s: seq<string>, x: string, rest: seq<string>)
    requires Sorted(s) && |s| > 0 && !NotAfter(x, s[0])
    requires multiset(rest) == multiset(s[1..]) + multiset{x}
    ensures forall y :: y in rest ==> NotAfter(s[0], y)
  {
    HeadIsLeast(s);
    NotAfterTotal(x, s[0]);
    forall y | y in rest ensures NotAfter(s[0], y) {
      assert y in multiset(rest);
      if y != x {
        assert y in multiset(s[1..]);
        assert y in s[1..];
        assert y in s;
      }
    }
  }

  /** `sorted(xs)`: insertion sort. */
  function Sort(xs: seq<string>): (r: seq<string>)
    ensures Sorted(r)
    ensures multiset(r) == multiset(xs)
    decreases |xs|
  {
    if |xs| == 0 then []
    else
      assert xs == [xs[0]] + xs[1..];
      Insert(xs[0], Sort(xs[1..]))
  }

  /** The last element of a sorted list is not before any of its members. */
  lemma LastIsGreatest(s: seq<string>)
    requires Sorted(s) && |s| > 0
    ensures forall y :: y in s ==> NotAfter(y, s[|s| - 1])
  {
    forall y | y in s ensures NotAfter(y, s[|s| - 1]) {
      var k :| 0 <= k < |s| && s[k] == y;
      if k == |s| - 1 {
        NotAfterReflexive(y);
      }
    }
  }

  /** At most one member of a collection is not before all the others. */
  lemma GreatestIsUnique(m1: string, m2: string, names: set<string>)
    requires m1 in names && m2 in names
    requires forall y :: y in names ==> NotAfter(y, m1)
    requires forall y :: y in names ==> NotAfter(y, m2)
    ensures m1 == m2
  {
    NotAfterAntisymmetric(m1, m2);
  }
}

=== FILE: pipeline.dfy ===
/**
  The `/chat` request handler: detect the language, translate to English,
  classify the intent, load the country's latest laws, reason, build the
  role's response, add the request's echo fields and translate the
  top-level string values back.
 */
module Pipeline {
  import opened Wrappers
  import opened Json
  import opened Text
  import opened Fields
  import opened LawRecords
  import opened LawRepository
  import opened Reasoning
  import opened Response

  /**
    The collaborators the handler calls but whose code is not modelled: the
    language detector, the two translators (text, language code) and the
    trained intent classifier.
   */
  datatype Services = Services(
    detectLanguage: string -> string,
    toEnglish: (string, string) -> string,
    fromEnglish: (string, string) -> string,
    predict: string -> string)

  const UnknownIntent := "unknown"
  const NeedMoreDetails := "Unable to identify the legal issue. Please provide more details."
  const LawNotAvailable := "Law information not available for this issue."

  /** The keys the handler adds to the agent's response. */
  const EchoKeys := {LegalReasoningField, Country, UserRole, LanguageDetected}

  /** The handler's two early answers, each a dictionary with one `message`. */
  function MessageOnly(text: string): (r: Envelope)
    ensures r.Keys == {Message} && r[Message] == Str(text)
  {
    map[Message := Str(text)]
  }

  /** The language the detector reports for the raw input. */
  function Language(svc: Services, userInput: string): string
  {
    svc.detectLanguage(userInput)
  }

  /** The English text the reasoning agent and the classifier see. */
  function ProcessedInput(svc: Services, userInput: string): string
  {
    svc.toEnglish(userInput, Language(svc, userInput))
  }

  /** The classifier's label for the processed input. */
  function Intent(svc: Services, userInput: string): string
  {
    svc.predict(ProcessedInput(svc, userInput))
  }

  /** The reasoning agent's result as the JSON object stored under `legal_reasoning`. */
  function ReasoningValue(a: Analysis): (v: Value)
    ensures v.Obj? && v.fields.Keys == {"reasoning", "conclusion"}
    ensures v.fields["conclusion"] == Str(a.conclusion)
    ensures var list := v.fields["reasoning"];
      && list.Arr? && |list.items| == |a.reasoning|
      && forall i :: 0 <= i < |a.reasoning| ==> list.items[i] == Str(a.reasoning[i])
  {
    Obj(map["reasoning" := StrList(a.reasoning), "conclusion" := Str(a.conclusion)])
  }

  /** One value of the closing comprehension: a string is back-translated, anything else kept. */
  function BackTranslated(v: Value, fromEnglish: (string, string) -> string, lang: string): (t: Value)
    ensures v.Str? ==> t == Str(fromEnglish(v.s, lang))
    ensures !v.Str? ==> t == v
  {
    if v.Str? then Str(fromEnglish(v.s, lang)) else v
  }

  /**
    The closing dict comprehension: every top-level string value goes
    through the back-translator; lists, objects, `None` and numbers are kept
    as they are, nested strings included.
   */
  function TranslateBack(env: Envelope, fromEnglish: (string, string) -> string, lang: string): (r: Envelope)
    ensures r.Keys == env.Keys
    ensures forall f :: f in env && !env[f].Str? ==> r[f] == env[f]
    ensures forall f :: f in env && env[f].Str? ==> r[f] == Str(fromEnglish(env[f].s, lang))
  {
    map f | f in env :: BackTranslated(env[f], fromEnglish, lang)
  }

  /** The response before translation: the agent's envelope and the four echo fields. */
  function Enrich(response: Envelope, analysis: Analysis, country: string, userRole: string, lang: string): (r: Envelope)
    ensures r.Keys == response.Keys + EchoKeys
    ensures forall f :: f in response && f !in EchoKeys ==> r[f] == response[f]
    ensures r[LegalReasoningField] == ReasoningValue(analysis)
    ensures r[Country] == Str(country) && r[UserRole] == Str(userRole) && r[LanguageDetected] == Str(lang)
  {
    response[LegalReasoningField := ReasoningValue(analysis)]
            [Country := Str(country)]
            [UserRole := Str(userRole)]
            [LanguageDetected := Str(lang)]
  }

  /**
    `chat(user_input, country, user_role)`. An unknown intent answers before
    any law is loaded; a load error is not caught and ends the request; an
    intent the laws do not cover gets the second message.
   */
  function Chat(svc: Services, disk: Disk, userInput: string, country: string, userRole: string): (r: Result<Envelope, LawError>)
    ensures Intent(svc, userInput) == UnknownIntent ==> r == Success(MessageOnly(NeedMoreDetails))
    ensures Intent(svc, userInput) != UnknownIntent && LoadLatestLawData(disk, country).Failure? ==>
      r == Failure(LoadLatestLawData(disk, country).error)
    ensures r.Failure? ==> LoadLatestLawData(disk, country) == Failure(r.error)
  {
    var lang := Language(svc, userInput);
    var processed := ProcessedInput(svc, userInput);
    var intent := Intent(svc, userInput);
    if intent == UnknownIntent then
      Success(MessageOnly(NeedMoreDetails))
    else
      var data :- LoadLatestLawData(disk, country);
      if intent !in data.laws then
        Success(MessageOnly(LawNotAvailable))
      else
        var law := RecordOf(data.laws[intent]);
        var analysis := LegalReasoning(intent, processed, law);
        var response := BuildResponse(intent, law, MetadataOf(data.meta), userRole);
        Success(TranslateBack(Enrich(response, analysis, country, userRole, lang), svc.fromEnglish, lang))
  }

  /** The echo fields never collide with a key the response agent sets. */
  lemma EchoKeysAreNew(role: Role)
    ensures EchoKeys !! BaseKeys + RoleKeys(role)
  {
  }

  /** The translators leave an envelope as it is when they leave every string as it is. */
  lemma TranslateBackIdentity(env: Envelope, fromEnglish: (string, string) -> string, lang: string)
    requires forall s :: fromEnglish(s, lang) == s
    ensures TranslateBack(env, fromEnglish, lang) == env
  {
    var r := TranslateBack(env, fromEnglish, lang);
    forall f | f in env ensures r[f] == env[f] {
      if env[f].Str? {
        assert fromEnglish(env[f].s, lang) == env[f].s;
      }
    }
  }

  /** An unknown intent is answered without looking at the disk or the country. */
  lemma UnknownIntentSkipsLoader(svc: Services, d1: Disk, d2: Disk, userInput: string, c1: string, c2: string, userRole: string)
    requires Intent(svc, userInput) == UnknownIntent
    ensures Chat(svc, d1, userInput, c1, userRole) == Chat(svc, d2, userInput, c2, userRole)
    ensures Chat(svc, d1, userInput, c1, userRole).value.Keys == {Message}
  {
  }

  /** Laws that do not cover the intent give the second message, untranslated. */
  lemma UncoveredIntent(svc: Services, disk: Disk, userInput: string, country: string, userRole: string)
    requires Intent(svc, userInput) != UnknownIntent
    requires LoadLatestLawData(disk, country).Success?
    requires Intent(svc, userInput) !in LoadLatestLawData(disk, country).value.laws
    ensures Chat(svc, disk, userInput, country, userRole) == Success(MessageOnly(LawNotAvailable))
  {
  }

  /**
    A covered intent: the response agent's keys plus the four echo fields;
    the reasoning object reaches the caller untranslated, the echoed
    strings go through the back-translator.
   */
  lemma CoveredIntent(svc: Services, disk: Disk, userInput: string, country: string, userRole: string)
    requires Intent(svc, userInput) != UnknownIntent
    requires LoadLatestLawData(disk, country).Success?
    requires Intent(svc, userInput) in LoadLatestLawData(disk, country).value.laws
    ensures var r := Chat(svc, disk, userInput, country, userRole);
      var intent := Intent(svc, userInput);
      var lang := Language(svc, userInput);
      var law := RecordOf(LoadLatestLawData(disk, country).value.laws[intent]);
      && r.Success?
      && r.value.Keys == BaseKeys + RoleKeys(ParseRole(userRole)) + EchoKeys
      && r.value[LegalReasoningField] == ReasoningValue(LegalReasoning(intent, ProcessedInput(svc, userInput), law))
      && r.value[Country] == Str(svc.fromEnglish(country, lang))
      && r.value[UserRole] == Str(svc.fromEnglish(userRole, lang))
      && r.value[LanguageDetected] == Str(svc.fromEnglish(lang, lang))
  {
    var intent := Intent(svc, userInput);
    var lang := Language(svc, userInput);
    var data := LoadLatestLawData(disk, country).value;
    var law := RecordOf(data.laws[intent]);
    var analysis := LegalReasoning(intent, ProcessedInput(svc, userInput), law);
    var response := BuildResponse(intent, law, MetadataOf(data.meta), userRole);
    var enriched := Enrich(response, analysis, country, userRole, lang);
    assert Chat(svc, disk, userInput, country, userRole) == Success(TranslateBack(enriched, svc.fromEnglish, lang));
  }

  /** Adding the echo fields and translating back keeps every value the response agent set, back-translated. */
  lemma AgentValuesSurvive(response: Envelope, analysis: Analysis, country: string, userRole: string, lang: string, fromEnglish: (string, string) -> string)
    ensures var r := TranslateBack(Enrich(response, analysis, country, userRole, lang), fromEnglish, lang);
      forall f :: f in response && f !in EchoKeys ==> f in r && r[f] == BackTranslated(response[f], fromEnglish, lang)
  {
    var enriched := Enrich(response, analysis, country, userRole, lang);
    var r := TranslateBack(enriched, fromEnglish, lang);
    forall f | f in response && f !in EchoKeys
      ensures f in r && r[f] == BackTranslated(response[f], fromEnglish, lang)
    {
      assert enriched[f] == response[f];
    }
  }

  /**
    A covered intent: every key the response agent set holds the agent's
    value, back-translated when it is a string.
   */
  lemma CoveredIntentKeepsAgentValues(svc: Services, disk: Disk, userInput: string, country: string, userRole: string)
    requires Intent(svc, userInput) != UnknownIntent
    requires LoadLatestLawData(disk, country).Success?
    requires Intent(svc, userInput) in LoadLatestLawData(disk, country).value.laws
    ensures var r := Chat(svc, disk, userInput, country, userRole);
      var intent := Intent(svc, userInput);
      var data := LoadLatestLawData(disk, country).value;
      var response := BuildResponse(intent, RecordOf(data.laws[intent]), MetadataOf(data.meta), userRole);
      && r.Success?
      && forall f :: f in response ==> f in r.value && r.value[f] == BackTranslated(response[f], svc.fromEnglish, Language(svc, userInput))
  {
    var intent := Intent(svc, userInput);
    var lang := Language(svc, userInput);
    var data := LoadLatestLawData(disk, country).value;
    var law := RecordOf(data.laws[intent]);
    var analysis := LegalReasoning(intent, ProcessedInput(svc, userInput), law);
    var response := BuildResponse(intent, law, MetadataOf(data.meta), userRole);
    assert Chat(svc, disk, userInput, country, userRole) == Success(TranslateBack(Enrich(response, analysis, country, userRole, lang), svc.fromEnglish, lang));
    EchoKeysAreNew(ParseRole(userRole));
    AgentValuesSurvive(response, analysis, country, userRole, lang, svc.fromEnglish);
  }

  /**
    A theft report whose English text says "stolen", in any letter case, is
    answered with the taking recognised as the first rationale, for every
    role.
   */
  lemma StolenReportRecognised(svc: Services, disk: Disk, userInput: string, spelling: string, country: string, userRole: string)
    requires Intent(svc, userInput) == TheftIssue
    requires Contains(ProcessedInput(svc, userInput), spelling) && Lower(spelling) == "stolen"
    requires LoadLatestLawData(disk, country).Success?
    requires TheftIssue in LoadLatestLawData(disk, country).value.laws
    ensures var r := Chat(svc, disk, userInput, country, userRole);
      var law := RecordOf(LoadLatestLawData(disk, country).value.laws[TheftIssue]);
      var a := LegalReasoning(TheftIssue, ProcessedInput(svc, userInput), law);
      && r.Success?
      && LegalReasoningField in r.value
      && r.value[LegalReasoningField] == ReasoningValue(a)
      && |a.reasoning| >= 2
      && r.value[LegalReasoningField].fields["reasoning"].items[0] == Str(PropertyTaken)
  {
    var law := RecordOf(LoadLatestLawData(disk, country).value.laws[TheftIssue]);
    StolenTextShowsTaking(ProcessedInput(svc, userInput), spelling, law);
    CoveredIntent(svc, disk, userInput, country, userRole);
  }
}

=== FILE: reasoning.dfy ===
/**
  The reasoning agent: keyword rules over the lower-cased user text give an
  ordered list of rationales, and a fixed sentence names the applicable
  section.
 */
module Reasoning {
  import opened Wrappers
  import opened Json
  import opened Text
  import opened LawRecords

  const TheftIssue := "theft"
  const FraudIssue := "fraud"

  const PropertyTaken := "Movable property appears to be taken"
  const TakenWithoutConsent := "Property taken without consent"
  const DishonestIntention := "Indicates dishonest intention"
  const UserDeceived := "User was deceived intentionally"
  const DishonestInducement := "Dishonest inducement detected"

  const ConclusionSuffix := " is applicable based on the identified facts."

  /** Keywords for taking property: English, Tamil ("thiruda") and Hindi ("chori"). */
  const TakingWords := ["stolen", "steal", "திருட", "चोरी"]
  /** Keywords for lack of consent; the Tamil stem counts here too. */
  const ConsentWords := ["without permission", "without consent", "திருட"]
  /** Keywords for deception: English, Tamil ("mosadi") and Hindi ("dhokha"). */
  const DeceptionWords := ["cheated", "scam", "மோசடி", "धोखा"]

  /** Python's `any(word in text for word in words)`. */
  predicate MentionsAny(text: string, words: seq<string>)
  {
    exists w :: w in words && Contains(text, w)
  }

  /** The `{"reasoning": [...], "conclusion": ...}` result. */
  datatype Analysis = Analysis(reasoning: seq<string>, conclusion: string)

  /** `legal_reasoning(issue, user_input, law_info)`. */
  function LegalReasoning(issue: string, userInput: string, law: LawRecord): (r: Analysis)
    ensures r.conclusion == Display(law.section) + ConclusionSuffix
    ensures issue == TheftIssue ==>
      && 1 <= |r.reasoning| <= 3
      && r.reasoning[|r.reasoning| - 1] == DishonestIntention
      && (PropertyTaken in r.reasoning <==> MentionsAny(Lower(userInput), TakingWords))
      && (TakenWithoutConsent in r.reasoning <==> MentionsAny(Lower(userInput), ConsentWords))
    ensures issue == TheftIssue && Contains(Lower(userInput), "stolen") ==>
      r.reasoning[0] == PropertyTaken
    ensures issue == TheftIssue && Contains(Lower(userInput), "திருட") ==>
      r.reasoning == [PropertyTaken, TakenWithoutConsent, DishonestIntention]
    ensures issue == FraudIssue ==>
      && 1 <= |r.reasoning| <= 2
      && r.reasoning[|r.reasoning| - 1] == DishonestInducement
      && (UserDeceived in r.reasoning <==> MentionsAny(Lower(userInput), DeceptionWords))
    ensures issue != TheftIssue && issue != FraudIssue ==> r.reasoning == []
  {
    var text := Lower(userInput);
    var reasons :=
      if issue == TheftIssue then
        (if MentionsAny(text, TakingWords) then [PropertyTaken] else [])
        + (if MentionsAny(text, ConsentWords) then [TakenWithoutConsent] else [])
        + [DishonestIntention]
      else if issue == FraudIssue then
        (if MentionsAny(text, DeceptionWords) then [UserDeceived] else [])
        + [DishonestInducement]
      else
        [];
    Analysis(reasons, Display(law.section) + ConclusionSuffix)
  }

  /** A keyword rule: when any trigger occurs in the text, the rationale is given. */
  datatype Rule = Rule(triggers: seq<string>, rationale: string)

  /**
    The rule table the agent encodes, for reference: per known issue, its
    keyword rules in declaration order and its closing rationale.
   */
  function RulesFor(issue: string): Option<(seq<Rule>, string)>
  {
    if issue == TheftIssue then
      Some(([Rule(TakingWords, PropertyTaken), Rule(ConsentWords, TakenWithoutConsent)], DishonestIntention))
    else if issue == FraudIssue then
      Some(([Rule(DeceptionWords, UserDeceived)], DishonestInducement))
    else
      None
  }

  /** The rationales of the rules whose triggers occur in `text`, in rule order. */
  function Fired(rules: seq<Rule>, text: string): (r: seq<string>)
    ensures |r| <= |rules|
    ensures forall x :: x in r ==> exists k :: 0 <= k < |rules| && rules[k].rationale == x && MentionsAny(text, rules[k].triggers)
    ensures forall k :: 0 <= k < |rules| && MentionsAny(text, rules[k].triggers) ==> rules[k].rationale in r
  {
    if |rules| == 0 then []
    else
      var rest := Fired(rules[1..], text);
      assert forall x :: x in rest ==> exists k :: 1 <= k < |rules| && rules[k].rationale == x && MentionsAny(text, rules[k].triggers) by {
        forall x | x in rest
          ensures exists k :: 1 <= k < |rules| && rules[k].rationale == x && MentionsAny(text, rules[k].triggers)
        {
          var k :| 0 <= k < |rules[1..]| && rules[1..][k].rationale == x && MentionsAny(text, rules[1..][k].triggers);
          assert rules[k + 1] == rules[1..][k];
        }
      }
      assert forall k :: 1 <= k < |rules| && MentionsAny(text, rules[k].triggers) ==> rules[k].rationale in rest by {
        forall k | 1 <= k < |rules| && MentionsAny(text, rules[k].triggers)
          ensures rules[k].rationale in rest
        {
          assert rules[1..][k - 1] == rules[k];
        }
      }
      (if MentionsAny(text, rules[0].triggers) then [rules[0].rationale] else []) + rest
  }

  /**
    The agent gives exactly the fired rules' rationales followed by the
    closing one; an issue without rules gets no rationale at all.
   */
  lemma LegalReasoningFollowsRules(issue: string, userInput: string, law: LawRecord)
    ensures LegalReasoning(issue, userInput, law).reasoning ==
      match RulesFor(issue)
      case None => []
      case Some((rules, closing)) => Fired(rules, Lower(userInput)) + [closing]
  {
  }

  /** The rationales do not depend on letter case in the user's text. */
  lemma ReasoningIgnoresCase(issue: string, userInput: string, law: LawRecord)
    ensures LegalReasoning(issue, Lower(userInput), law) == LegalReasoning(issue, userInput, law)
  {
    LowerIdempotent(userInput);
  }

  /**
    Raw text saying "stolen" in any letter case (`spelling` is any word that
    lower-cases to it, such as "STOLEN" or "Stolen") makes the first theft
    rationale fire.
   */
  lemma StolenTextShowsTaking(userInput: string, spelling: string, law: LawRecord)
    requires Contains(userInput, spelling) && Lower(spelling) == "stolen"
    ensures var r := LegalReasoning(TheftIssue, userInput, law);
      |r.reasoning| >= 2 && r.reasoning[0] == PropertyTaken
  {
    LowerKeepsOccurrences(userInput, spelling);
  }

  /** A string section is spelled out at the head of the conclusion. */
  lemma ConclusionNamesSection(issue: string, userInput: string, law: LawRecord)
    requires law.section.Str?
    ensures var c := LegalReasoning(issue, userInput, law).conclusion;
      StartsWith(c, law.section.s) && Contains(c, law.section.s)
  {
    var c := LegalReasoning(issue, userInput, law).conclusion;
    assert c[..|law.section.s|] == law.section.s;
  }
}

=== FILE: response.dfy ===
/**
  The response agent: a base envelope every caller gets, extended with one
  block of fields chosen by the requester's role.
 */
module Response {
  import opened Json
  import opened Fields
  import opened LawRecords

  const Disclaimer := "This is for informational purposes only and not legal advice."
  const ProfessionalNote := "This information is intended for professional reference."
  const LegalAdvice := "It is strongly recommended to consult a qualified lawyer immediately."
  const InvalidRoleMessage := "Invalid user role selected."

  /** The fixed checklist a citizen is given. */
  const CitizenSteps := Arr([
    Str("Go to the nearest police station"),
    Str("File an FIR or complaint"),
    Str("Preserve all evidence"),
    Str("Consult a lawyer if required")
  ])

  /** The fixed list of rights an accused person is reminded of. */
  const AccusedRights := Arr([
    Str("Right to remain silent"),
    Str("Right to legal counsel"),
    Str("Right against self-incrimination"),
    Str("Right to fair trial")
  ])

  const BaseKeys := {
    IssueIdentified, LawName, Section, Severity,
    LawVersion, LawYear, LastUpdated, DisclaimerField
  }
  const CitizenKeys := {Explanation, WhatYouShouldDo, LegalFlow}
  const LawyerKeys := {LegalConditions, Procedure, Punishment, Note}
  const AccusedKeys := {ImportantRights, LegalAdviceField, Punishment}

  /** The roles the agent recognises, and everything else. */
  datatype Role = Citizen | Lawyer | Accused | Unrecognised

  function ParseRole(userRole: string): (role: Role)
    ensures role == Citizen <==> userRole == "citizen"
    ensures role == Lawyer <==> userRole == "lawyer"
    ensures role == Accused <==> userRole == "accused"
  {
    if userRole == "citizen" then Citizen
    else if userRole == "lawyer" then Lawyer
    else if userRole == "accused" then Accused
    else Unrecognised
  }

  /** The keys a role's block adds to the base envelope. */
  function RoleKeys(role: Role): set<Field>
  {
    match role
    case Citizen => CitizenKeys
    case Lawyer => LawyerKeys
    case Accused => AccusedKeys
    case Unrecognised => {Message}
  }

  /**
    The value the agent stores under each field, in whichever block stores
    it: the law record's and metadata's parts and the fixed texts and lists.
    The one key two blocks share, `punishment`, holds the same value in both.
   */
  function FieldValue(f: Field, issue: string, law: LawRecord, meta: Metadata): Value
  {
    match f
    case IssueIdentified => Str(issue)
    case LawName => law.lawName
    case Section => law.section
    case Severity => law.severity
    case LawVersion => meta.version
    case LawYear => meta.year
    case LastUpdated => meta.lastUpdated
    case DisclaimerField => Str(Disclaimer)
    case Explanation => law.explanation
    case WhatYouShouldDo => CitizenSteps
    case LegalFlow => law.legalFlow
    case LegalConditions => law.conditions
    case Procedure => law.legalFlow
    case Punishment => law.punishment
    case Note => Str(ProfessionalNote)
    case ImportantRights => AccusedRights
    case LegalAdviceField => Str(LegalAdvice)
    case Message => Str(InvalidRoleMessage)
    case LegalReasoningField | Country | UserRole | LanguageDetected => Null
  }

  /** The envelope for a parsed role: the base keys and the role's keys, each holding its `FieldValue`. */
  function Assemble(issue: string, law: LawRecord, meta: Metadata, role: Role): (r: Envelope)
    ensures r.Keys == BaseKeys + RoleKeys(role)
  {
    map f | f in BaseKeys + RoleKeys(role) :: FieldValue(f, issue, law, meta)
  }

  /**
    `build_response(issue, law_info, meta_info, user_role)`: the base dict
    updated with the block of the role `user_role` names.
   */
  function BuildResponse(issue: string, law: LawRecord, meta: Metadata, userRole: string): (r: Envelope)
    ensures r.Keys == BaseKeys + RoleKeys(ParseRole(userRole))
    ensures r[IssueIdentified] == Str(issue)
    ensures r[LawName] == law.lawName
    ensures r[Section] == law.section
    ensures r[Severity] == law.severity
    ensures r[LawVersion] == meta.version
    ensures r[LawYear] == meta.year
    ensures r[LastUpdated] == meta.lastUpdated
    ensures r[DisclaimerField] == Str(Disclaimer)
  {
    Assemble(issue, law, meta, ParseRole(userRole))
  }

  /** The citizen block: explanation, a fixed checklist and the legal flow, and no punishment. */
  lemma CitizenBlock(issue: string, law: LawRecord, meta: Metadata)
    ensures var r := Assemble(issue, law, meta, Citizen);
      && r.Keys == BaseKeys + CitizenKeys
      && Punishment !in r
      && r[Explanation] == law.explanation
      && r[WhatYouShouldDo] == CitizenSteps
      && r[LegalFlow] == law.legalFlow
  {
    var r := Assemble(issue, law, meta, Citizen);
    assert Punishment !in BaseKeys + CitizenKeys;
    assert r[Explanation] == FieldValue(Explanation, issue, law, meta);
    assert r[WhatYouShouldDo] == FieldValue(WhatYouShouldDo, issue, law, meta);
    assert r[LegalFlow] == FieldValue(LegalFlow, issue, law, meta);
  }

  /** The lawyer block: conditions, the procedure (the legal flow), the punishment and a note. */
  lemma LawyerBlock(issue: string, law: LawRecord, meta: Metadata)
    ensures var r := Assemble(issue, law, meta, Lawyer);
      && r.Keys == BaseKeys + LawyerKeys
      && r[LegalConditions] == law.conditions
      && r[Procedure] == law.legalFlow
      && r[Punishment] == law.punishment
      && r[Note] == Str(ProfessionalNote)
  {
    var r := Assemble(issue, law, meta, Lawyer);
    assert r[LegalConditions] == FieldValue(LegalConditions, issue, law, meta);
    assert r[Procedure] == FieldValue(Procedure, issue, law, meta);
    assert r[Punishment] == FieldValue(Punishment, issue, law, meta);
    assert r[Note] == FieldValue(Note, issue, law, meta);
  }

  /** The accused block: four fixed rights, advice and the punishment, and nothing meant for others. */
  lemma AccusedBlock(issue: string, law: LawRecord, meta: Metadata)
    ensures var r := Assemble(issue, law, meta, Accused);
      && r.Keys == BaseKeys + AccusedKeys
      && r[ImportantRights] == AccusedRights
      && r[LegalAdviceField] == Str(LegalAdvice)
      && r[Punishment] == law.punishment
      && r.Keys !! CitizenKeys + (LawyerKeys - {Punishment})
  {
    var r := Assemble(issue, law, meta, Accused);
    AccusedKeysExcludeOthers();
    assert r[ImportantRights] == FieldValue(ImportantRights, issue, law, meta);
    assert r[LegalAdviceField] == FieldValue(LegalAdviceField, issue, law, meta);
    assert r[Punishment] == FieldValue(Punishment, issue, law, meta);
  }

  /** `user_role == "citizen"`: the citizen block. */
  lemma CitizenResponse(issue: string, law: LawRecord, meta: Metadata)
    ensures var r := BuildResponse(issue, law, meta, "citizen");
      && r.Keys == BaseKeys + CitizenKeys
      && Punishment !in r
      && r[Explanation] == law.explanation
      && r[WhatYouShouldDo] == CitizenSteps
      && r[LegalFlow] == law.legalFlow
  {
    CitizenBlock(issue, law, meta);
  }

  /** `user_role == "lawyer"`: the lawyer block. */
  lemma LawyerResponse(issue: string, law: LawRecord, meta: Metadata)
    ensures var r := BuildResponse(issue, law, meta, "lawyer");
      && r.Keys == BaseKeys + LawyerKeys
      && r[LegalConditions] == law.conditions
      && r[Procedure] == law.legalFlow
      && r[Punishment] == law.punishment
      && r[Note] == Str(ProfessionalNote)
  {
    LawyerBlock(issue, law, meta);
  }

  /** `user_role == "accused"`: the accused block. */
  lemma AccusedResponse(issue: string, law: LawRecord, meta: Metadata)
    ensures var r := BuildResponse(issue, law, meta, "accused");
      && r.Keys == BaseKeys + AccusedKeys
      && r[ImportantRights] == AccusedRights
      && r[LegalAdviceField] == Str(LegalAdvice)
      && r[Punishment] == law.punishment
      && r.Keys !! CitizenKeys + (LawyerKeys - {Punishment})
  {
    AccusedBlock(issue, law, meta);
  }

  lemma AccusedKeysExcludeOthers()
    ensures BaseKeys + AccusedKeys !! CitizenKeys + (LawyerKeys - {Punishment})
  {
  }

  /** Any other role: the base envelope plus exactly one `message`. */
  lemma InvalidRoleResponse(issue: string, law: LawRecord, meta: Metadata, userRole: string)
    requires userRole != "citizen" && userRole != "lawyer" && userRole != "accused"
    ensures var r := BuildResponse(issue, law, meta, userRole);
      && r.Keys == BaseKeys + {Message}
      && r[Message] == Str(InvalidRoleMessage)
  {
  }
}

=== FILE: scenarios.dfy ===
/**
  A small law library holding one country's directory listing (two yearly
  versions and a stray note), and no version documents.
 */
module Scenarios {
  import opened Wrappers
  import opened Json
  import opened Text
  import opened LexOrder
  import opened LawRepository
  import opened Pipeline

  const IndiaListing := ["2023.json", "notes.txt", "2024.json"]

  const Library: Disk := map["law_data/india" := Directory(IndiaListing)]

  /** An English-speaking user, identity translators, and a classifier that always answers `theft`. */
  const TheftDesk := Services(s => "en", (s, lang) => s, (s, lang) => s, s => "theft")

  /** In the India directory the 2024 version is chosen; the note is skipped. */
  lemma IndiaPicksLatestYear()
    ensures SelectLatest(true, IndiaListing) == Success("2024.json")
  {
    assert "2024.json"[4..] == VersionSuffix;
    assert NotAfter("2023.json", "2024.json");
    NotAfterReflexive("2024.json");
    assert forall n :: n in IndiaListing ==> n == "2023.json" || n == "notes.txt" || n == "2024.json";
    GreatestVersionIsSelected(IndiaListing, "2024.json");
  }

  /** A country without a directory ends the request with the first not-found error. */
  lemma UnknownCountryFails(userInput: string, userRole: string)
    ensures Chat(TheftDesk, Library, userInput, "atlantis", userRole) == Failure(CountryNotAvailable)
  {
    assert JoinPath(LawRoot, "atlantis") == "law_data/atlantis";
    assert "law_data/atlantis" != "law_data/india";
  }
}

=== FILE: text.dfy ===
/**
  String primitives the Python code relies on: `str.lower()`, the substring
  test `word in text`, `str.endswith` and `os.path.join`.
 */
module Text {

  /** ASCII case folding of one character; every other character is kept. */
  function LowerChar(c: char): char
  {
    if 'A' <= c <= 'Z' then (c as int + 32) as char else c
  }

  /** `s.lower()`, restricted to ASCII letters. */
  function Lower(s: string): (r: string)
    ensures |r| == |s|
    ensures forall i :: 0 <= i < |s| ==> r[i] == LowerChar(s[i])
  {
    seq(|s|, i requires 0 <= i < |s| => LowerChar(s[i]))
  }

  predicate StartsWith(s: string, prefix: string)
  {
    |prefix| <= |s| && s[..|prefix|] == prefix
  }

  /** `s.endswith(suffix)`. */
  predicate EndsWith(s: string, suffix: string)
  {
    |suffix| <= |s| && s[|s| - |suffix|..] == suffix
  }

  /** Python's `word in text`, scanning the start positions left to right. */
  predicate Contains(text: string, word: string)
    decreases |text|
  {
    StartsWith(text, word) || (|text| > 0 && Contains(text[1..], word))
  }

  /** `word` occurs in `text` starting at index `i`. */
  ghost predicate OccursAt(text: string, word: string, i: int)
  {
    0 <= i && i + |word| <= |text| && text[i..i + |word|] == word
  }

  /** An occurrence at any start position is found by the scan. */
  lemma {:induction false} OccurrenceIsFound(text: string, word: string, i: int)
    requires OccursAt(text, word, i)
    ensures Contains(text, word)
    decreases i
  {
    if i == 0 {
      assert text[..|word|] == word;
    } else {
      assert text[1..][i - 1..i - 1 + |word|] == text[i..i + |word|];
      OccurrenceIsFound(text[1..], word, i - 1);
    }
  }

  /** Whatever the scan finds is an occurrence at some start position. */
  lemma {:induction false} FoundIsOccurrence(text: string, word: string) returns (i: nat)
    requires Contains(text, word)
    ensures OccursAt(text, word, i)
    decreases |text|
  {
    if StartsWith(text, word) {
      i := 0;
    } else {
      var j := FoundIsOccurrence(text[1..], word);
      assert text[1..][j..j + |word|] == text[j + 1..j + 1 + |word|];
      i := j + 1;
    }
  }

  /** The scan finds `word` exactly when some start position holds it. */
  lemma ContainsIff(text: string, word: string)
    ensures Contains(text, word) <==> exists i :: OccursAt(text, word, i)
  {
    if Contains(text, word) {
      var i := FoundIsOccurrence(text, word);
    }
    forall i | OccursAt(text, word, i)
      ensures Contains(text, word)
    {
      OccurrenceIsFound(text, word, i);
    }
  }

  /** Lower-casing the text keeps every occurrence of a lower-cased word. */
  lemma LowerKeepsOccurrences(text: string, word: string)
    requires Contains(text, word)
    ensures Contains(Lower(text), Lower(word))
  {
    ContainsIff(text, word);
    var i :| OccursAt(text, word, i);
    assert Lower(text)[i..i + |word|] == Lower(word);
    assert OccursAt(Lower(text), Lower(word), i);
    ContainsIff(Lower(text), Lower(word));
  }

  /** Lower-casing twice is lower-casing once. */
  lemma LowerIdempotent(s: string)
    ensures Lower(Lower(s)) == Lower(s)
  {
    assert forall i :: 0 <= i < |s| ==> Lower(Lower(s))[i] == Lower(s)[i];
  }

  /**
    `os.path.join(a, b)` on POSIX: an absolute `b` replaces `a`; otherwise a
    separator is inserted unless `a` is empty or already ends with one.
   */
  function JoinPath(a: string, b: string): (p: string)
    ensures EndsWith(p, b)
    ensures |b| > 0 && b[0] != '/' && |a| > 0 && a[|a| - 1] != '/' ==> p == a + "/" + b
  {
    if |b| > 0 && b[0] == '/' then b
    else if |a| == 0 || a[|a| - 1] == '/' then a + b
    else a + "/" + b
  }
}

=== FILE: wrappers.dfy ===
/** Failure-compatible wrappers shared by the whole model. */
module Wrappers {

  /** A value that may be absent (Python's `None`). */
  datatype Option<+T> = None | Some(value: T)

  /** The outcome of an operation that can raise: `Failure` carries the error. */
  datatype Result<+R, +E> = Success(value: R) | Failure(error: E) {

    predicate IsFailure() {
      Failure?
    }

    function PropagateFailure<U>(): Result<U, E>
      requires Failure?
    {
      Failure(error)
    }

    function Extract(): R
      requires Success?
    {
      value
    }
  }
}
